=== FILE: README.md ===
# Jive UI helpers (jive_utils.c) in Dafny

This project models `src/src/pkg/jive/src/ui/jive_utils.c` from the Jive
UI toolkit. That file holds the small C helpers the toolkit's Lua bindings
share:

- `jive_rect_union` computes the bounding box of two `SDL_Rect`s.
- `jive_rect_intersection` computes their common part, reported as
  `(0, 0, 0, 0)` when there is none.
- `jiveL_getframework` pushes `jive.ui.Framework`.
- `jive_getmethod` looks up an optional method on a Lua object.
- `jive_getpeer` returns the C block ("peer") that backs a Lua widget
  object. On first use it creates the block, tags it with a named
  metatable carrying a finaliser, and caches it in the object's `peer`
  field.
- `jive_torect` reads a Lua array `{x, y, w, h}` into an `SDL_Rect`.

The project is split into four modules:

- `geometry.dfy` (module `Geometry`) has the rectangle value type and the
  union and intersection. It proves that the union is the least covering
  rectangle, that the intersection is the greatest rectangle inside both
  among rectangles with non-negative extents, and the algebraic laws of both operations.
- `lua_api.dfy` (module `LuaApi`) is an abstract Lua 5.1 state as the C API
  sees it. It holds the value stack, the heap of tables and userdata
  blocks, the registry's named metatables, and the globals table. The API
  calls the helpers make are functions from state to state. A raised
  error, which unwinds with `longjmp` in C, is an `Err` result: a
  `luaL_check*` failure, or `lua_getfield`/`lua_setfield` on a value that
  is not a table. An `Err` carries no state (see Left out). `WellFormed` states the heap invariants, and one lemma per call
  shows that the call keeps them.
- `jive_utils.dfy` (module `JiveUtils`) has the four Lua helpers, each
  written as the same sequence of API calls as the C code. For
  `jive_getpeer` that is `GetPeerAsWritten`; `GetPeer`, the corrected
  version the rest of the model uses, differs only in resolving the index
  to its stack position on entry (see Findings).
- `jive_properties.dfy` (module `JiveProperties`) holds the lemmas that
  follow a helper through its calls or relate several calls:
  - the helpers keep a well-formed state well-formed;
  - a peer is created once and then returned unchanged;
  - a peer of one type is never accepted as another;
  - the creating branch changes exactly the new block, the tag's
    registry entry and metatable, and the object's `peer` field;
  - `jive_torect` reads back the rectangle a table holds;
  - `jive_getpeer` as written mishandles a negative index (see Findings).

Stack indices follow the C API. A positive index counts from the bottom
and a negative one from the top. Each API call resolves the index against
the stack as it is at that moment. A positive index above the top is
acceptable too: it names no value, `lua_type` answers "none" there,
`lua_isnil` answers false, and reading it yields nil.

## Model

| member | source | states |
|---|---|---|
| Geometry.Union | src/src/pkg/jive/src/ui/jive_utils.c:135-145 | the result covers both inputs, and has non-negative extents when both inputs do |
| Geometry.UnionIsLeast | src/src/pkg/jive/src/ui/jive_utils.c:135-145 | every rectangle that covers both inputs covers their union, so the union is the bounding box |
| Geometry.UnionCommutative | src/src/pkg/jive/src/ui/jive_utils.c:135-145 | the argument order does not matter |
| Geometry.UnionAssociative | src/src/pkg/jive/src/ui/jive_utils.c:135-145 | unions can be regrouped |
| Geometry.UnionIdempotent | src/src/pkg/jive/src/ui/jive_utils.c:135-145 | the union of a rectangle with itself is that rectangle, whatever the sign of its extents |
| Geometry.Intersection | src/src/pkg/jive/src/ui/jive_utils.c:148-174 | the result has non-negative extents; it is (0,0,0,0) whenever the closed boxes do not meet, and otherwise lies inside both inputs |
| Geometry.IntersectionIsGreatest | src/src/pkg/jive/src/ui/jive_utils.c:148-174 | every rectangle with non-negative extents inside both inputs lies inside their intersection, and then the boxes meet |
| Geometry.IntersectionCommutative | src/src/pkg/jive/src/ui/jive_utils.c:148-174 | the argument order does not matter |
| Geometry.IntersectionIdempotent | src/src/pkg/jive/src/ui/jive_utils.c:148-174 | a rectangle with non-negative extents is its own intersection; one with a negative extent gives (0,0,0,0) |
| Geometry.MeetIffCommonRect | src/src/pkg/jive/src/ui/jive_utils.c:162-173 | the non-empty branch is taken exactly when some rectangle with non-negative extents lies in both inputs |
| Geometry.IntersectionTouching | src/src/pkg/jive/src/ui/jive_utils.c:157-173 | spans that only touch meet, and take the non-empty branch: the result is the zero-width rectangle on the shared edge, which is (0,0,0,0) only when that edge is the single point at the origin |
| Geometry.IntersectionOfDisjointHasNoArea | src/src/pkg/jive/src/ui/jive_utils.c:148-174 | rectangles whose interiors do not overlap have an intersection of area zero |
| Geometry.IntersectionWithinUnion | src/src/pkg/jive/src/ui/jive_utils.c:135-174 | a non-empty intersection lies inside the union |
| Geometry.UnionAreaOfDisjoint | src/src/pkg/jive/src/ui/jive_utils.c:135-174 | for non-overlapping rectangles with non-negative extents, the union's area is at least the sum of their areas, and the intersection's area is zero |
| Geometry.UnionOverlapExample | src/src/pkg/jive/src/ui/jive_utils.c:135-145 | (0,0,10,10) and (5,5,10,10) give (0,0,15,15) |
| Geometry.UnionApartExample | src/src/pkg/jive/src/ui/jive_utils.c:135-145 | (0,0,5,5) and (10,10,5,5) give (0,0,15,15) |
| Geometry.IntersectionOverlapExample | src/src/pkg/jive/src/ui/jive_utils.c:148-174 | (0,0,10,10) and (5,5,10,10) give (5,5,5,5) |
| Geometry.IntersectionApartExample | src/src/pkg/jive/src/ui/jive_utils.c:162-167 | (0,0,5,5) and (10,10,5,5) give (0,0,0,0) |
| Geometry.TouchingAtOriginExample | src/src/pkg/jive/src/ui/jive_utils.c:157-173 | (-10,-10,10,10) and (0,0,5,5) meet at the origin, yet give (0,0,0,0), the value also reported for boxes that do not meet |
| Geometry.IntersectionTouchingExample | src/src/pkg/jive/src/ui/jive_utils.c:157-173 | (0,0,10,10) and (10,0,10,10) give (10,0,0,10) |
| LuaApi.PushKeepsWellFormed | src/src/pkg/jive/src/ui/jive_utils.c:90 | pushing a value that does not dangle keeps the heap invariants |
| LuaApi.PopKeepsWellFormed | src/src/pkg/jive/src/ui/jive_utils.c:54 | lua_pop keeps the heap invariants |
| LuaApi.GetGlobalKeepsWellFormed | src/src/pkg/jive/src/ui/jive_utils.c:49 | lua_getglobal pushes a value that does not dangle |
| LuaApi.RawGetIKeepsWellFormed | src/src/pkg/jive/src/ui/jive_utils.c:115 | lua_rawgeti on a table pushes a value that does not dangle |
| LuaApi.ReplaceKeepsWellFormed | src/src/pkg/jive/src/ui/jive_utils.c:53 | lua_replace keeps the heap invariants |
| LuaApi.SetFieldEffect | src/src/pkg/jive/src/ui/jive_utils.c:91 | lua_setfield on a table pops one value; the field then reads back as that value; every other field and every other table reads as before |
| LuaApi.GetFieldKeepsWellFormed | src/src/pkg/jive/src/ui/jive_utils.c:82 | lua_getfield pushes a value that does not dangle |
| LuaApi.SetFieldKeepsWellFormed | src/src/pkg/jive/src/ui/jive_utils.c:94 | lua_setfield keeps the heap invariants |
| LuaApi.NewUserdataKeepsWellFormed | src/src/pkg/jive/src/ui/jive_utils.c:86 | lua_newuserdata allocates a block whose identity no table or block had |
| LuaApi.MemsetKeepsWellFormed | src/src/pkg/jive/src/ui/jive_utils.c:87 | zeroing a block keeps the heap invariants |
| LuaApi.NewMetatableKeepsWellFormed | src/src/pkg/jive/src/ui/jive_utils.c:89 | luaL_newmetatable keeps distinct names owning distinct tables |
| LuaApi.SetMetatableKeepsWellFormed | src/src/pkg/jive/src/ui/jive_utils.c:93 | lua_setmetatable keeps the heap invariants |
| LuaApi.CheckUdata | src/src/pkg/jive/src/ui/jive_utils.c:97 | luaL_checkudata accepts exactly a block whose metatable is the one registered under the name; otherwise its type error reports the value's own type, or, at index -1 for a block with a metatable, a table if the name is registered and nil if not |
| JiveUtils.GetFramework | src/src/pkg/jive/src/ui/jive_utils.c:48-57 | succeeds exactly when `jive` and `jive.ui` are tables, and otherwise fails with an index error naming the type of the first of them that is not; on success it returns 1, and the only change is `jive.ui.Framework` pushed on the stack |
| JiveUtils.GetMethod | src/src/pkg/jive/src/ui/jive_utils.c:60-74 | a nil object gives 0 with nothing changed; any other non-table, and an index above the top (which `lua_isnil` does not report as nil), is an index error; otherwise it returns 1 exactly when the field is non-nil, the stack grows by the count returned, the pushed value is the field, and popping it restores the state |
| JiveUtils.NewZeroedBlock | src/src/pkg/jive/src/ui/jive_utils.c:86-87 | a fresh block of the requested size, all zero whatever the allocator returned, is pushed; the old blocks, the tables and the registry are unchanged |
| JiveUtils.FinalizerMetatable | src/src/pkg/jive/src/ui/jive_utils.c:89-91 | the metatable registered under the name (fresh if the name was new) is pushed with `__gc` set to the finaliser; other registry entries, blocks and tables read as before |
| JiveUtils.NewTaggedBlock | src/src/pkg/jive/src/ui/jive_utils.c:86-93 | a fresh zeroed block, tagged with the type's metatable, is left on the stack; only that block, the registry entry and the metatable are new or changed |
| JiveUtils.StorePeer | src/src/pkg/jive/src/ui/jive_utils.c:86-94 | through a positive index naming a table, the creating branch succeeds exactly when that slot holds a table; it leaves the stack as it was and the object's `peer` field holding a fresh, zeroed, tagged block |
| JiveUtils.GetPeerAsWritten | src/src/pkg/jive/src/ui/jive_utils.c:77-106 | the code as written agrees with the corrected GetPeer for every positive index |
| JiveUtils.GetPeer | src/src/pkg/jive/src/ui/jive_utils.c:77-106 | succeeds exactly when the object is a table whose `peer` is nil or a block tagged with the type; an index error for a non-table, and an index error on nil for an index above the top; a type error naming slot -1 for a wrong peer, which reports the peer's own type when it is not a block with a metatable, and otherwise reports a table if the type is registered and nil if not; on success the stack is as before and `peer` holds the tagged block returned; an existing peer is returned with nothing changed |
| JiveUtils.ReadInteger | src/src/pkg/jive/src/ui/jive_utils.c:115-117 | one rawgeti/checkinteger/pop step yields the element's integer and restores the state, or a type error naming slot -1 |
| JiveUtils.ToRect | src/src/pkg/jive/src/ui/jive_utils.c:109-132 | a non-table is a type error naming the index and the value's type, and an index above the top is one reporting "no value"; it succeeds exactly when elements 1 to 4 are integers; otherwise the first element that is not is a type error naming slot -1 and that element's type; on success the rectangle's fields are those elements and the state is unchanged |
| JiveProperties.GetFrameworkKeepsWellFormed | src/src/pkg/jive/src/ui/jive_utils.c:48-57 | pushing `jive.ui.Framework` keeps the heap invariants |
| JiveProperties.GetMethodKeepsWellFormed | src/src/pkg/jive/src/ui/jive_utils.c:60-74 | the method lookup keeps the heap invariants |
| JiveProperties.NewZeroedBlockKeepsWellFormed | src/src/pkg/jive/src/ui/jive_utils.c:86-87 | allocating and zeroing the peer block keeps the heap invariants |
| JiveProperties.FinalizerMetatableKeepsWellFormed | src/src/pkg/jive/src/ui/jive_utils.c:89-91 | registering the metatable and setting `__gc` keep the heap invariants |
| JiveProperties.NewTaggedBlockKeepsWellFormed | src/src/pkg/jive/src/ui/jive_utils.c:86-93 | creating and tagging the peer block keeps the heap invariants |
| JiveProperties.GetPeerKeepsWellFormed | src/src/pkg/jive/src/ui/jive_utils.c:77-106 | a successful jive_getpeer keeps the heap invariants |
| JiveProperties.StorePeerKeepsBlocks | src/src/pkg/jive/src/ui/jive_utils.c:86-94 | the creating branch adds exactly one block and the type's registry entry; old blocks and registry entries are unchanged |
| JiveProperties.StorePeerKeepsTables | src/src/pkg/jive/src/ui/jive_utils.c:86-94 | the creating branch leaves every table except the object and the tag's metatable unchanged |
| JiveProperties.StorePeerWritesObject | src/src/pkg/jive/src/ui/jive_utils.c:94 | unless the object is the metatable itself, every field of the object other than `peer` reads as before |
| JiveProperties.StorePeerAddsTables | src/src/pkg/jive/src/ui/jive_utils.c:89-94 | the only tables that can be added are the tag's metatable, which is new when the name was not registered, and the object; so when the object's table already exists, only the metatable can be new |
| JiveProperties.StorePeerSetsFinalizer | src/src/pkg/jive/src/ui/jive_utils.c:89-94 | after the creating branch, the tag's metatable has `__gc` set to the type's finaliser |
| JiveProperties.GetPeerReuses | src/src/pkg/jive/src/ui/jive_utils.c:96-101 | an object whose `peer` holds a block of the right type gets that block back, with nothing changed |
| JiveProperties.GetPeerIdempotent | src/src/pkg/jive/src/ui/jive_utils.c:77-106 | after one successful call, a second call with any allocator contents returns the same block and changes nothing, so the peer is created once |
| JiveProperties.GetPeerTagIntegrity | src/src/pkg/jive/src/ui/jive_utils.c:97 | a peer tagged with one type name is rejected for any other name, with a type error naming the expected type and reporting a table if that type is registered and nil if not |
| JiveProperties.TagMismatchExample | src/src/pkg/jive/src/ui/jive_utils.c:97 | a peer tagged "A" checked against the unregistered "B" gives "B expected, got nil" |
| JiveProperties.GetPeerNegativeIndexMisses | src/src/pkg/jive/src/ui/jive_utils.c:82-94 | with index -1 on a table without a peer, the code as written fails with an index error on a userdata, while the corrected version succeeds |
| JiveProperties.StorePeerOnTopFails | src/src/pkg/jive/src/ui/jive_utils.c:86-94 | storing through index -1 targets the new block itself, which cannot be indexed |
| JiveProperties.GetPeerNegativeIndexWrongTable | src/src/pkg/jive/src/ui/jive_utils.c:82-94 | with index -2 on an object without a peer just below another table, the code as written succeeds, stores the peer in that other table, and leaves the object's `peer` nil |
| JiveProperties.StorePeerBelowTopHitsTop | src/src/pkg/jive/src/ui/jive_utils.c:86-94 | storing through index -2 targets the value that was on top before the block was pushed, and leaves every other table's `peer` as it was |
| JiveProperties.NegativeIndexWrongTableExample | src/src/pkg/jive/src/ui/jive_utils.c:94 | two tables, index -2: as written the peer goes to table 1, corrected to table 0 |
| JiveProperties.NegativeIndexExample | src/src/pkg/jive/src/ui/jive_utils.c:94 | a one-table stack, index -1: the code as written fails while the corrected version succeeds |
| JiveProperties.ToRectReadsBack | src/src/pkg/jive/src/ui/jive_utils.c:109-132 | a table holding {x, y, w, h} is read back as exactly that rectangle, with the state unchanged |
| JiveProperties.ToRectMissingElement | src/src/pkg/jive/src/ui/jive_utils.c:127-128 | a table missing its fourth element is a type error naming slot -1 and reporting nil |

## Left out

- `jive_print_stack`: it only prints the stack with `printf`, so there is nothing to state about it.
- Metamethods: `lua_getfield` and `lua_setfield` here access tables raw, and indexing anything else is an error. `__index` and `__newindex` on objects and userdata are not modelled. Strings are among these values: through their shared metatable, `lua_getfield` on a string would look the name up in the string library, while here it is an index error.
- The garbage collector, and so the calling of the `__gc` finaliser, is not modelled. The model only records which function is installed.
- Memory errors from `lua_newuserdata` and `luaL_newmetatable` are not modelled; allocation always succeeds. The allocator's memory is a parameter (`raw`).
- Lua numbers are modelled as the integers `luaL_checkinteger` yields. Floating point, and the parsing of numeric strings, are not modelled. A string carries the integer its text converts to, if any.
- `JIVEL_STACK_CHECK_BEGIN`/`END` are debug assertions. The model instead proves that the stack is unchanged (GetPeer, ToRect).
- Geometry.Union: does not model the 16-bit `SDL_Rect` fields (`Sint16` x, y and `Uint16` w, h) or the truncation of `x1 - x0` when it is stored back; the arithmetic is on unbounded integers.
- Geometry.Intersection: same as Union; no 16-bit truncation and no `int` overflow of `x + w`.
- JiveUtils.ToRect: does not truncate the integers read to the 16-bit `SDL_Rect` fields. It also returns either a whole rectangle or an error, while the C code writes `rect->x`, `y`, `w` and `h` into the caller's struct one at a time (lines 116, 120, 124, 128): when element k fails the check, fields 1 to k-1 of the caller's struct have already been overwritten. The caller's struct is not modelled.
- Stack indices are `1..top`, `-top..-1`, or, where the C code only queries the index (`lua_isnil`, `lua_getfield`, `luaL_checktype`), a positive index above the top. Indices the C API does not accept (0, a negative index below the bottom) are excluded by the preconditions, as is a positive index above the top for the calls that store through it. Pseudo-indices such as `LUA_REGISTRYINDEX` are not modelled, and neither is the bound on stack space that `lua_checkstack` reserves.
- Error states: an `Err` carries no state, so the heap changes a helper made before raising an error are not modelled. `longjmp` does not undo them.
- JiveUtils.GetPeerAsWritten: when the store at line 94 fails for a negative index, lines 86-93 have already run. They allocated and zeroed the block and registered the metatable under `magic` (that registry entry stays). They also set its `__gc`, and the now-orphaned block carries that finaliser, which the collector will later run. The model returns only `Err(IndexError(TUserdata))` and does not describe this leftover heap.
- `luaL_checkudata` comes from Lua 5.1's `lauxlib.c`, which is not part of this model; LuaApi.CheckUdata follows that library's code, including which slot its type error reports after it has pushed the two metatables it compares. Light userdata are treated as having no metatable.
- The registry is modelled only as the map of `luaL_newmetatable` names. Metatables of tables, and `lua_touserdata` on light userdata, are not modelled.

## Findings

| source | as written | input that shows it | evidently intended | confidence | as-written member | corrected member |
|---|---|---|---|---|---|---|
| src/src/pkg/jive/src/ui/jive_utils.c:94 | `lua_setfield(L, index, "peer")` uses the caller's `index` after the new peer block has been pushed (line 86), so a negative index names a slot one higher than the object. With -1 it names the new block itself; with -2 and below, some other slot. | `jive_getpeer(L, -1, meta)` on a stack holding one table without a `peer` field: the store targets the userdata and raises an index error. `jive_getpeer(L, -2, meta)` on a stack of two tables, the lower one without a `peer` field: the call succeeds but stores the peer in the upper table, and the object keeps a nil `peer` | store the peer in the object the caller named, e.g. by converting `index` to an absolute index on entry | not executed | JiveUtils.GetPeerAsWritten, JiveProperties.GetPeerNegativeIndexMisses, JiveProperties.NegativeIndexExample, JiveProperties.GetPeerNegativeIndexWrongTable, JiveProperties.NegativeIndexWrongTableExample | JiveUtils.GetPeer |

## Touching rectangles

The emptiness test at line 162 of `jive_rect_intersection` uses strict comparisons, so rectangles whose spans only touch take the else branch at line 168. The result is the zero-width or zero-height rectangle on the shared edge (Geometry.IntersectionTouching). A caller that tests the result against `(0, 0, 0, 0)` to mean "no overlap" therefore usually sees touching rectangles as overlapping. The exception is when the shared edge is the single point at the origin: then the result is `(0, 0, 0, 0)` although the boxes meet (Geometry.TouchingAtOriginExample). So `(0, 0, 0, 0)` does not always mean "strictly apart". The model follows the code.

=== FILE: geometry.dfy ===
/**
 * Rectangle algebra of the Jive UI toolkit: the SDL_Rect value type and the
 * union and intersection that widget layout uses (jive_utils.c).
 *
 * Coordinates are unbounded integers; the 16-bit fields of SDL_Rect and any
 * wrap-around in `x + w` are not modelled.
 */
module Geometry {

  /** An SDL rectangle: top-left origin (x, y) and extents (w, h). */
  datatype Rect = Rect(x: int, y: int, w: int, h: int) {
    predicate NonNegative() { w >= 0 && h >= 0 }
    function Area(): int { w * h }
  }

  /** The rectangle an empty intersection is reported as. */
  const Empty := Rect(0, 0, 0, 0)

  /** The MIN and MAX macros: `(a)<(b)?(a):(b)` and `(a)>(b)?(a):(b)`. */
  function Min(a: int, b: int): int { if a < b then a else b }
  function Max(a: int, b: int): int { if a > b then a else b }

  /** `outer` covers `inner` on both axes; edges may coincide. */
  predicate Contains(outer: Rect, inner: Rect) {
    && outer.x <= inner.x && inner.x + inner.w <= outer.x + outer.w
    && outer.y <= inner.y && inner.y + inner.h <= outer.y + outer.h
  }

  /** The closed spans [lo1, hi1] and [lo2, hi2] are both non-empty and share a point. */
  predicate SpansMeet(lo1: int, hi1: int, lo2: int, hi2: int) {
    lo1 <= hi1 && lo2 <= hi2 && lo1 <= hi2 && lo2 <= hi1
  }

  /** The closed boxes of `a` and `b` share at least one point. */
  predicate Meet(a: Rect, b: Rect) {
    && SpansMeet(a.x, a.x + a.w, b.x, b.x + b.w)
    && SpansMeet(a.y, a.y + a.h, b.y, b.y + b.h)
  }

  /** The interiors of `a` and `b` do not overlap: on some axis they are apart or only touch. */
  predicate Disjoint(a: Rect, b: Rect) {
    a.x + a.w <= b.x || b.x + b.w <= a.x || a.y + a.h <= b.y || b.y + b.h <= a.y
  }

  /**
   * jive_rect_union: the bounding box of `a` and `b`. It covers both inputs,
   * and UnionIsLeast shows it is the smallest rectangle that does.
   */
  function Union(a: Rect, b: Rect): (c: Rect)
    ensures Contains(c, a) && Contains(c, b)
    ensures a.NonNegative() && b.NonNegative() ==> c.NonNegative()
  {
    var x0 := Min(a.x, b.x);
    var y0 := Min(a.y, b.y);
    var x1 := Max(a.x + a.w, b.x + b.w);
    var y1 := Max(a.y + a.h, b.y + b.h);
    Rect(x0, y0, x1 - x0, y1 - y0)
  }

  /**
   * jive_rect_intersection: each input span is clamped to the other; if
   * either clamped span comes out inverted the result is `Empty`, otherwise
   * it is the clamped box, which lies inside both inputs;
   * IntersectionIsGreatest shows it is the largest rectangle that does.
   * Spans that only touch still give a zero-width (or zero-height)
   * rectangle at the shared edge.
   */
  function Intersection(a: Rect, b: Rect): (c: Rect)
    ensures c.NonNegative()
    ensures !Meet(a, b) ==> c == Empty
    ensures Meet(a, b) ==> Contains(a, c) && Contains(b, c)
  {
    // `if (cx0 < b->x) cx0 = b->x;` and its three siblings are Max and Min
    var cx0 := Max(a.x, b.x);
    var cy0 := Max(a.y, b.y);
    var cx1 := Min(a.x + a.w, b.x + b.w);
    var cy1 := Min(a.y + a.h, b.y + b.h);
    if cx1 < cx0 || cy1 < cy0 then Empty
    else Rect(cx0, cy0, cx1 - cx0, cy1 - cy0)
  }

  /** Covering is antisymmetric, so the bounding-box contract pins the union down. */
  lemma ContainsAntisymmetric(a: Rect, b: Rect)
    requires Contains(a, b) && Contains(b, a)
    ensures a == b
  {
  }

  /** The union lies inside every rectangle that covers both inputs. */
  lemma UnionIsLeast(a: Rect, b: Rect, d: Rect)
    requires Contains(d, a) && Contains(d, b)
    ensures Contains(d, Union(a, b))
  {
  }

  /** Every rectangle with non-negative extents inside both inputs lies inside their intersection. */
  lemma IntersectionIsGreatest(a: Rect, b: Rect, d: Rect)
    requires d.NonNegative() && Contains(a, d) && Contains(b, d)
    ensures Meet(a, b)
    ensures Contains(Intersection(a, b), d)
  {
  }

  lemma UnionCommutative(a: Rect, b: Rect)
    ensures Union(a, b) == Union(b, a)
  {
    ContainsAntisymmetric(Union(a, b), Union(b, a));
  }

  lemma UnionAssociative(a: Rect, b: Rect, c: Rect)
    ensures Union(Union(a, b), c) == Union(a, Union(b, c))
  {
    ContainsAntisymmetric(Union(Union(a, b), c), Union(a, Union(b, c)));
  }

  /** Union with itself gives the rectangle back, whatever the sign of its extents. */
  lemma UnionIdempotent(r: Rect)
    ensures Union(r, r) == r
  {
    ContainsAntisymmetric(Union(r, r), r);
  }

  lemma IntersectionCommutative(a: Rect, b: Rect)
    ensures Intersection(a, b) == Intersection(b, a)
  {
  }

  /** A rectangle with non-negative extents is its own intersection; one with a negative extent meets nothing. */
  lemma IntersectionIdempotent(r: Rect)
    ensures r.NonNegative() ==> Intersection(r, r) == r
    ensures !r.NonNegative() ==> Intersection(r, r) == Empty
  {
    if r.NonNegative() {
      assert Meet(r, r);
      ContainsAntisymmetric(Intersection(r, r), r);
    }
  }

  /** The boxes meet exactly when some rectangle with non-negative extents lies in both. */
  lemma MeetIffCommonRect(a: Rect, b: Rect)
    ensures Meet(a, b) <==> exists d: Rect :: d.NonNegative() && Contains(a, d) && Contains(b, d)
  {
    if Meet(a, b) {
      var d := Intersection(a, b);
      assert d.NonNegative() && Contains(a, d) && Contains(b, d);
    }
  }

  /**
   * Inputs whose spans only touch on x take the non-empty branch and give a
   * zero-width rectangle on the shared edge. That rectangle is `Empty` only
   * when the edge is the single point at the origin.
   */
  lemma IntersectionTouching(a: Rect, b: Rect)
    requires a.NonNegative() && b.NonNegative()
    requires a.x + a.w == b.x
    requires SpansMeet(a.y, a.y + a.h, b.y, b.y + b.h)
    ensures Meet(a, b)
    ensures Intersection(a, b).x == b.x && Intersection(a, b).w == 0
    ensures Intersection(a, b).y == Max(a.y, b.y)
    ensures Intersection(a, b).h == Min(a.y + a.h, b.y + b.h) - Max(a.y, b.y)
    ensures Intersection(a, b) == Empty <==> b.x == 0 && Max(a.y, b.y) == 0 && Min(a.y + a.h, b.y + b.h) == 0
  {
  }

  /** Rectangles whose interiors do not overlap have an intersection of zero area. */
  lemma IntersectionOfDisjointHasNoArea(a: Rect, b: Rect)
    requires Disjoint(a, b)
    ensures Intersection(a, b).Area() == 0
  {
    var c := Intersection(a, b);
    if Meet(a, b) {
      assert c.w == 0 || c.h == 0;
    }
  }

  /** Whenever the boxes meet, their intersection lies inside their union. */
  lemma IntersectionWithinUnion(a: Rect, b: Rect)
    ensures Contains(Union(a, b), Intersection(a, b)) || Intersection(a, b) == Empty
  {
  }

  lemma MulMonotone(k: int, m: int, n: int)
    requires k >= 0 && m <= n
    ensures k * m <= k * n
  {
  }

  /** A p-by-q box whose p side holds two sides side by side and whose q side holds either other side outweighs both boxes. */
  lemma {:induction false} ProductBound(p: int, q: int, a1: int, a2: int, b1: int, b2: int)
    requires a1 >= 0 && a2 >= 0 && b1 >= 0 && b2 >= 0
    requires p >= a1 + b1 && q >= a2 && q >= b2
    ensures p * q >= a1 * a2 + b1 * b2
  {
    MulMonotone(q, a1 + b1, p);
    assert (a1 + b1) * q == a1 * q + b1 * q;
    MulMonotone(a1, a2, q);
    MulMonotone(b1, b2, q);
  }

  /**
   * Rectangles with non-negative extents whose interiors do not overlap: the
   * bounding box has at least the sum of their areas, while the
   * intersection has none.
   */
  lemma {:induction false} UnionAreaOfDisjoint(a: Rect, b: Rect)
    requires a.NonNegative() && b.NonNegative()
    requires Disjoint(a, b)
    ensures Union(a, b).Area() >= a.Area() + b.Area()
    ensures Intersection(a, b).Area() == 0
  {
    IntersectionOfDisjointHasNoArea(a, b);
    var c := Union(a, b);
    if a.x + a.w <= b.x || b.x + b.w <= a.x {
      ProductBound(c.w, c.h, a.w, a.h, b.w, b.h);
    } else {
      ProductBound(c.h, c.w, a.h, a.w, b.h, b.w);
      assert c.h * c.w == c.w * c.h && a.h * a.w == a.w * a.h && b.h * b.w == b.w * b.h;
    }
  }

  lemma UnionOverlapExample()
    ensures Union(Rect(0, 0, 10, 10), Rect(5, 5, 10, 10)) == Rect(0, 0, 15, 15)
  {
    var u := Union(Rect(0, 0, 10, 10), Rect(5, 5, 10, 10));
    assert u.x == 0 && u.y == 0 && u.w == 15 && u.h == 15;
  }

  lemma UnionApartExample()
    ensures Union(Rect(0, 0, 5, 5), Rect(10, 10, 5, 5)) == Rect(0, 0, 15, 15)
  {
    var u := Union(Rect(0, 0, 5, 5), Rect(10, 10, 5, 5));
    assert u.x == 0 && u.y == 0 && u.w == 15 && u.h == 15;
  }

  lemma IntersectionOverlapExample()
    ensures Intersection(Rect(0, 0, 10, 10), Rect(5, 5, 10, 10)) == Rect(5, 5, 5, 5)
  {
    var a, b := Rect(0, 0, 10, 10), Rect(5, 5, 10, 10);
    assert a.x + a.w == 10 && b.x + b.w == 15 && a.y + a.h == 10 && b.y + b.h == 15;
    var i := Intersection(a, b);
    assert i.x == 5 && i.y == 5 && i.w == 5 && i.h == 5;
  }

  lemma IntersectionApartExample()
    ensures Intersection(Rect(0, 0, 5, 5), Rect(10, 10, 5, 5)) == Empty
  {
  }

  /**
   * Corners touching at the origin: the boxes meet, yet the result is
   * `(0, 0, 0, 0)`, the same value reported for boxes that do not meet.
   */
  lemma TouchingAtOriginExample()
    ensures Meet(Rect(-10, -10, 10, 10), Rect(0, 0, 5, 5))
    ensures Intersection(Rect(-10, -10, 10, 10), Rect(0, 0, 5, 5)) == Empty
  {
  }

  /** Touching edges: the result sits on the shared edge x = 10, not at the origin. */
  lemma IntersectionTouchingExample()
    ensures Intersection(Rect(0, 0, 10, 10), Rect(10, 0, 10, 10)) == Rect(10, 0, 0, 10)
  {
    var t := Intersection(Rect(0, 0, 10, 10), Rect(10, 0, 10, 10));
    assert t.x == 10 && t.y == 0 && t.w == 0 && t.h == 10;
  }
}

=== FILE: jive_properties.dfy ===
/**
 * Properties of the jive_utils.c helpers that relate several calls or
 * follow a helper through its API calls: the helpers keep a well-formed
 * Lua state well-formed, jive_getpeer creates a peer once and then keeps
 * returning it, a peer of one type is never accepted as another, jive_torect
 * reads back the rectangle a table holds, and the negative-index defect of
 * jive_getpeer as written.
 */
module JiveProperties {
  import opened LuaApi
  import opened Geometry
  import opened JiveUtils

  // ---------------------------------------------------------------------
  // Well-formedness is kept
  // ---------------------------------------------------------------------

  lemma {:induction false} GetFrameworkKeepsWellFormed(st: State)
    requires WellFormed(st) && GetFramework(st).Ok?
    ensures WellFormed(GetFramework(st).value.st)
  {
    var ui := FieldOf(st, Global(st, "jive"), "ui");
    LookupLive(st, ui.t, Field("Framework"));
    PushKeepsWellFormed(st, FieldOf(st, ui, "Framework"));
  }

  lemma {:induction false} GetMethodKeepsWellFormed(st: State, index: int, name: string)
    requires WellFormed(st) && Acceptable(st, index) && GetMethod(st, index, name).Ok?
    ensures WellFormed(GetMethod(st, index, name).value.st)
  {
    if Get(st, index).Table? {
      GetFieldKeepsWellFormed(st, index, name);
    }
  }

  lemma {:induction false} NewZeroedBlockKeepsWellFormed(st: State, size: nat, raw: seq<byte>)
    requires WellFormed(st) && |raw| == size
    ensures WellFormed(NewZeroedBlock(st, size, raw).st)
  {
    var Ret(peer, st0) := NewUserdata(st, raw);
    NewUserdataKeepsWellFormed(st, raw);
    MemsetKeepsWellFormed(st0, peer);
  }

  lemma {:induction false} FinalizerMetatableKeepsWellFormed(st: State, magic: string, gc: CFunction)
    requires WellFormed(st)
    ensures WellFormed(FinalizerMetatable(st, magic, gc))
  {
    var Ret(_, st1) := NewMetatable(st, magic);
    NewMetatableKeepsWellFormed(st, magic);
    var st2 := PushCFunction(st1, gc);
    PushKeepsWellFormed(st1, Function(gc));
    assert Get(st2, -2) == Table(st1.registry[magic]);
    SetFieldKeepsWellFormed(st2, -2, "__gc");
  }

  /** Lines 86-93 of jive_getpeer keep a well-formed state well-formed. */
  lemma {:induction false} NewTaggedBlockKeepsWellFormed(st: State, meta: PeerMeta, raw: seq<byte>)
    requires WellFormed(st) && |raw| == meta.size
    ensures WellFormed(NewTaggedBlock(st, meta, raw).st)
  {
    var Ret(peer, st1) := NewZeroedBlock(st, meta.size, raw);
    NewZeroedBlockKeepsWellFormed(st, meta.size, raw);
    var st2 := FinalizerMetatable(st1, meta.magic, meta.gc);
    FinalizerMetatableKeepsWellFormed(st1, meta.magic, meta.gc);
    assert Get(st2, -2) == Userdata(peer);
    SetMetatableKeepsWellFormed(st2, -2);
  }

  lemma {:induction false} GetPeerKeepsWellFormed(st: State, index: int, meta: PeerMeta, raw: seq<byte>)
    requires WellFormed(st) && Acceptable(st, index) && |raw| == meta.size
    requires GetPeer(st, index, meta, raw).Ok?
    ensures WellFormed(GetPeer(st, index, meta, raw).value.st)
  {
    var obj := Position(st, index);
    if PeerOf(st, Get(st, index)) == Nil {
      var Ret(peer, st1) := NewTaggedBlock(st, meta, raw);
      NewTaggedBlockKeepsWellFormed(st, meta, raw);
      SetFieldKeepsWellFormed(st1, obj, "peer");
    }
  }

  // ---------------------------------------------------------------------
  // What creating a peer changes
  // ---------------------------------------------------------------------

  /**
   * The peer-creating branch of jive_getpeer adds one block and at most one
   * registry entry: the blocks and registry entries that existed before
   * read as before.
   */
  lemma {:induction false} StorePeerKeepsBlocks(st: State, target: int, meta: PeerMeta, raw: seq<byte>)
    requires Bounded(st) && |raw| == meta.size
    requires 1 <= target <= |st.stack| && Get(st, target).Table?
    ensures StorePeer(st, target, meta, raw).Ok?
    ensures var Ret(peer, st') := StorePeer(st, target, meta, raw).value;
      && st'.blocks.Keys == st.blocks.Keys + {peer}
      && (forall u :: u in st.blocks ==> st'.blocks[u] == st.blocks[u])
      && st'.registry.Keys == st.registry.Keys + {meta.magic}
      && (forall n :: n in st.registry ==> st'.registry[n] == st.registry[n])
  {
    var Ret(peer, st1) := NewTaggedBlock(st, meta, raw);
    GetBelowPush(st, st1, Userdata(peer), target);
    SetFieldEffect(st1, target, "peer");
  }

  /**
   * The peer-creating branch of jive_getpeer writes two tables only, the
   * object and the tag's metatable: every other table reads as before.
   */
  lemma {:induction false} StorePeerKeepsTables(st: State, target: int, meta: PeerMeta, raw: seq<byte>)
    requires Bounded(st) && |raw| == meta.size
    requires 1 <= target <= |st.stack| && Get(st, target).Table?
    ensures StorePeer(st, target, meta, raw).Ok?
    ensures var st' := StorePeer(st, target, meta, raw).value.st;
      forall t :: t in st.tables && t != Get(st, target).t && t != st'.registry[meta.magic] ==>
        st'.tables[t] == st.tables[t]
  {
    var Ret(peer, st1) := NewTaggedBlock(st, meta, raw);
    GetBelowPush(st, st1, Userdata(peer), target);
    SetFieldEffect(st1, target, "peer");
    var st' := SetField(st1, target, "peer").value;
    forall t | t in st.tables && t != Get(st, target).t && t != st1.registry[meta.magic]
      ensures st'.tables[t] == st.tables[t]
    {
      assert FieldsOf(st1.tables, t) == FieldsOf(st.tables, t);
    }
  }

  /**
   * Unless the object is the tag's metatable itself, the peer-creating
   * branch leaves every field of the object but `peer` as it was.
   */
  lemma {:induction false} StorePeerWritesObject(st: State, target: int, meta: PeerMeta, raw: seq<byte>)
    requires Bounded(st) && |raw| == meta.size
    requires 1 <= target <= |st.stack| && Get(st, target).Table?
    ensures StorePeer(st, target, meta, raw).Ok?
    ensures var st' := StorePeer(st, target, meta, raw).value.st;
      var obj := Get(st, target).t;
      obj != st'.registry[meta.magic] ==>
        forall k :: k != Field("peer") ==> Lookup(FieldsOf(st'.tables, obj), k) == Lookup(FieldsOf(st.tables, obj), k)
  {
    var Ret(peer, st1) := NewTaggedBlock(st, meta, raw);
    GetBelowPush(st, st1, Userdata(peer), target);
    SetFieldEffect(st1, target, "peer");
  }

  /**
   * The only tables the peer-creating branch can add are the tag's
   * metatable, which is new when the tag was not registered, and the object.
   */
  lemma {:induction false} StorePeerAddsTables(st: State, target: int, meta: PeerMeta, raw: seq<byte>)
    requires Bounded(st) && |raw| == meta.size
    requires 1 <= target <= |st.stack| && Get(st, target).Table?
    ensures StorePeer(st, target, meta, raw).Ok?
    ensures var st' := StorePeer(st, target, meta, raw).value.st;
      var mt := st'.registry[meta.magic];
      && (meta.magic !in st.registry ==> mt !in st.tables)
      && st'.tables.Keys == st.tables.Keys + {mt, Get(st, target).t}
  {
    var Ret(peer, st1) := NewTaggedBlock(st, meta, raw);
    GetBelowPush(st, st1, Userdata(peer), target);
    SetFieldEffect(st1, target, "peer");
  }

  /** After the peer-creating branch the tag's metatable has `__gc` set to the type's finaliser. */
  lemma {:induction false} StorePeerSetsFinalizer(st: State, target: int, meta: PeerMeta, raw: seq<byte>)
    requires Bounded(st) && |raw| == meta.size
    requires 1 <= target <= |st.stack| && Get(st, target).Table?
    ensures StorePeer(st, target, meta, raw).Ok?
    ensures var st' := StorePeer(st, target, meta, raw).value.st;
      FieldOf(st', Table(st'.registry[meta.magic]), "__gc") == Function(meta.gc)
  {
    var Ret(peer, st1) := NewTaggedBlock(st, meta, raw);
    var mt := st1.registry[meta.magic];
    GetBelowPush(st, st1, Userdata(peer), target);
    SetFieldEffect(st1, target, "peer");
    assert Field("__gc") != Field("peer") by { assert "__gc"[0] != "peer"[0]; }
  }

  // ---------------------------------------------------------------------
  // One peer per object
  // ---------------------------------------------------------------------

  /** jive_getpeer on an object whose `peer` field holds a block of the right type returns it and changes nothing. */
  lemma GetPeerReuses(st: State, index: int, meta: PeerMeta, raw: seq<byte>)
    requires Bounded(st) && Valid(st, index) && |raw| == meta.size
    requires Get(st, index).Table? && Tagged(st, PeerOf(st, Get(st, index)), meta.magic)
    ensures GetPeer(st, index, meta, raw) == Ok(Ret(PeerOf(st, Get(st, index)).u, st))
  {
  }

  /**
   * Once jive_getpeer has succeeded on an object, calling it again, with
   * whatever memory the allocator would hand out, returns the same block and
   * changes nothing: the peer is created and stored once.
   */
  lemma {:induction false} GetPeerIdempotent(st: State, index: int, meta: PeerMeta, raw: seq<byte>, raw': seq<byte>)
    requires WellFormed(st) && Acceptable(st, index) && |raw| == meta.size && |raw'| == meta.size
    requires GetPeer(st, index, meta, raw).Ok?
    ensures var Ret(peer, st') := GetPeer(st, index, meta, raw).value;
      && Valid(st', index) && Bounded(st')
      && GetPeer(st', index, meta, raw') == Ok(Ret(peer, st'))
  {
    GetPeerKeepsWellFormed(st, index, meta, raw);
    var Ret(peer, st') := GetPeer(st, index, meta, raw).value;
    GetSameStack(st, st', index);
    GetPeerReuses(st', index, meta, raw');
  }

  /**
   * Distinct type names own distinct metatables, so a block tagged with one
   * peer type is rejected by jive_getpeer for any other. The type error
   * names the expected type and, because luaL_checkudata has pushed the
   * registered metatable by then, reports slot -1 as a table if that type
   * is registered and as nil if it is not.
   */
  lemma {:induction false} GetPeerTagIntegrity(st: State, index: int, tagged: string, meta: PeerMeta, raw: seq<byte>)
    requires WellFormed(st) && Valid(st, index) && |raw| == meta.size
    requires Get(st, index).Table? && Tagged(st, PeerOf(st, Get(st, index)), tagged)
    requires meta.magic != tagged
    ensures GetPeer(st, index, meta, raw) ==
      Err(TypeError(-1, meta.magic, if meta.magic in st.registry then TTable else TNil))
  {
  }

  /**
   * A concrete mismatch: the object's peer is tagged "A", the caller asks
   * for "B", which was never registered, and the error reports nil.
   */
  lemma TagMismatchExample()
    ensures
      var st := State([Table(0)], map[0 := map[Field("peer") := Userdata(2)], 1 := map[], 3 := map[]],
                      map[2 := Block([], Some(3))], map["A" := 3], 1, 4);
      GetPeer(st, 1, PeerMeta(0, "B", 7), []) == Err(TypeError(-1, "B", TNil))
  {
    var st := State([Table(0)], map[0 := map[Field("peer") := Userdata(2)], 1 := map[], 3 := map[]],
                    map[2 := Block([], Some(3))], map["A" := 3], 1, 4);
    assert PeerOf(st, Get(st, 1)) == Userdata(2);
  }

  // ---------------------------------------------------------------------
  // jive_getpeer with a negative index
  // ---------------------------------------------------------------------

  /**
   * As written, jive_getpeer called with index -1 on a table without a peer
   * stores the peer into the slot -1 names after the new block has been
   * pushed, which is that block itself, and fails; the corrected GetPeer
   * succeeds and stores the peer in the table.
   */
  lemma {:induction false} GetPeerNegativeIndexMisses(st: State, meta: PeerMeta, raw: seq<byte>)
    requires Bounded(st) && |st.stack| > 0 && |raw| == meta.size
    requires Top(st).Table? && PeerOf(st, Top(st)) == Nil
    ensures GetPeerAsWritten(st, -1, meta, raw) == Err(IndexError(TUserdata))
    ensures GetPeer(st, -1, meta, raw).Ok?
  {
    assert Get(st, -1) == Top(st);
    var st1 := GetField(st, -1, "peer").value;
    assert IsNil(st1, -1);
    assert Pop(st1, 1) == st;
    StorePeerOnTopFails(st, meta, raw);
  }

  /** Stored through index -1, the peer lands on the new block itself, which cannot be indexed. */
  lemma StorePeerOnTopFails(st: State, meta: PeerMeta, raw: seq<byte>)
    requires Bounded(st) && |raw| == meta.size
    ensures StorePeer(st, -1, meta, raw) == Err(IndexError(TUserdata))
  {
    var Ret(peer, st1) := NewTaggedBlock(st, meta, raw);
    assert Get(st1, -1) == Userdata(peer);
  }

  /** A concrete instance: a state holding one empty table, and index -1. */
  lemma NegativeIndexExample()
    ensures var st := State([Table(0)], map[0 := map[], 1 := map[]], map[], map[], 1, 2);
      && GetPeerAsWritten(st, -1, PeerMeta(4, "Widget", 7), [1, 2, 3, 4]) == Err(IndexError(TUserdata))
      && GetPeer(st, -1, PeerMeta(4, "Widget", 7), [1, 2, 3, 4]).Ok?
  {
    var st := State([Table(0)], map[0 := map[], 1 := map[]], map[], map[], 1, 2);
    assert PeerOf(st, Top(st)) == Nil;
    GetPeerNegativeIndexMisses(st, PeerMeta(4, "Widget", 7), [1, 2, 3, 4]);
  }

  /**
   * As written, jive_getpeer called with index -2 on an object without a
   * peer, just below another table, succeeds but stores the peer in that
   * other table and leaves the object's `peer` field nil. (The corrected
   * GetPeer stores it in the object, as its contract states.)
   */
  lemma {:induction false} GetPeerNegativeIndexWrongTable(st: State, meta: PeerMeta, raw: seq<byte>)
    requires Bounded(st) && |st.stack| >= 2 && |raw| == meta.size
    requires Get(st, -2).Table? && Top(st).Table? && Get(st, -2) != Top(st)
    requires Get(st, -2).t in st.tables && PeerOf(st, Get(st, -2)) == Nil
    ensures var written := GetPeerAsWritten(st, -2, meta, raw);
      && written.Ok?
      && FieldOf(written.value.st, Top(st), "peer") == Userdata(written.value.ret)
      && FieldOf(written.value.st, Get(st, -2), "peer") == Nil
  {
    var st0 := GetField(st, -2, "peer").value;
    assert IsNil(st0, -1);
    assert Pop(st0, 1) == st;
    StorePeerBelowTopHitsTop(st, Get(st, -2), meta, raw);
  }

  /**
   * Stored through index -2, the peer lands in the value that was on top
   * before the new block was pushed; any other table's `peer` field is left
   * as it was.
   */
  lemma {:induction false} StorePeerBelowTopHitsTop(st: State, other: Value, meta: PeerMeta, raw: seq<byte>)
    requires Bounded(st) && |st.stack| >= 1 && Top(st).Table? && |raw| == meta.size
    requires other.Table? && other != Top(st) && other.t in st.tables
    ensures var r := StorePeer(st, -2, meta, raw);
      && r.Ok?
      && FieldOf(r.value.st, Top(st), "peer") == Userdata(r.value.ret)
      && FieldOf(r.value.st, other, "peer") == FieldOf(st, other, "peer")
  {
    var Ret(peer, st1) := NewTaggedBlock(st, meta, raw);
    var mt := st1.registry[meta.magic];
    if other.t == mt {
      assert st1.tables[mt] == FieldsOf(st.tables, mt)[Field("__gc") := Function(meta.gc)];
    } else {
      assert FieldsOf(st1.tables, other.t) == FieldsOf(st.tables, other.t);
    }
    GetUnderPush(st, st1, Userdata(peer));
    SetFieldEffect(st1, -2, "peer");
    assert StorePeer(st, -2, meta, raw) == Ok(Ret(peer, SetField(st1, -2, "peer").value));
  }

  /**
   * A concrete instance: a stack of two empty tables, and index -2. As
   * written the peer goes to table 1; corrected, to table 0.
   */
  lemma NegativeIndexWrongTableExample()
    ensures
      var st := State([Table(0), Table(1)], map[0 := map[], 1 := map[], 2 := map[]], map[], map[], 2, 3);
      var written := GetPeerAsWritten(st, -2, PeerMeta(4, "Widget", 7), [1, 2, 3, 4]);
      && written.Ok?
      && FieldOf(written.value.st, Table(1), "peer") == Userdata(written.value.ret)
      && FieldOf(written.value.st, Table(0), "peer") == Nil
    ensures
      var st := State([Table(0), Table(1)], map[0 := map[], 1 := map[], 2 := map[]], map[], map[], 2, 3);
      var corrected := GetPeer(st, -2, PeerMeta(4, "Widget", 7), [1, 2, 3, 4]);
      corrected.Ok? && FieldOf(corrected.value.st, Table(0), "peer") == Userdata(corrected.value.ret)
  {
    var st := State([Table(0), Table(1)], map[0 := map[], 1 := map[], 2 := map[]], map[], map[], 2, 3);
    assert Get(st, -2) == Table(0) && PeerOf(st, Table(0)) == Nil;
    GetPeerNegativeIndexWrongTable(st, PeerMeta(4, "Widget", 7), [1, 2, 3, 4]);
  }

  // ---------------------------------------------------------------------
  // jive_torect
  // ---------------------------------------------------------------------

  /** A table holding `r` as the array {x, y, w, h}. */
  function RectTable(r: Rect): map<Key, Value> {
    map[Item(1) := Number(r.x), Item(2) := Number(r.y), Item(3) := Number(r.w), Item(4) := Number(r.h)]
  }

  /** jive_torect reads back the rectangle a table holds, and leaves the state as it was. */
  lemma {:induction false} ToRectReadsBack(st: State, index: int, r: Rect)
    requires Valid(st, index) && Get(st, index).Table?
    requires FieldsOf(st.tables, Get(st, index).t) == RectTable(r)
    ensures ToRect(st, index) == Ok(Ret(r, st))
  {
    assert Element(st, index, 1) == Number(r.x);
    assert Element(st, index, 2) == Number(r.y);
    assert Element(st, index, 3) == Number(r.w);
    assert Element(st, index, 4) == Number(r.h);
    var res := ToRect(st, index);
    assert res.value.ret.x == r.x && res.value.ret.y == r.y;
    assert res.value.ret.w == r.w && res.value.ret.h == r.h;
  }

  /** A table missing its height element is rejected with a type error naming the top slot. */
  lemma {:induction false} ToRectMissingElement(st: State, index: int, r: Rect)
    requires Valid(st, index) && Get(st, index).Table?
    requires FieldsOf(st.tables, Get(st, index).t) == RectTable(r) - {Item(4)}
    ensures ToRect(st, index) == Err(TypeError(-1, "number", TNil))
  {
    assert Element(st, index, 1) == Number(r.x);
    assert Element(st, index, 2) == Number(r.y);
    assert Element(st, index, 3) == Number(r.w);
    assert Element(st, index, 4) == Nil;
  }
}

=== FILE: jive_utils.dfy ===
/**
 * The Lua binding helpers of jive_utils.c, each a function from a Lua state
 * to its outcome: what the helper returns to C and the state it leaves.
 * Stack indices mean what they mean to the C API: positive from the
 * bottom, negative from the top, resolved against the stack as it is at
 * the moment each API call is made.
 */
module JiveUtils {
  import opened LuaApi
  import opened Geometry

  /** JivePeerMeta: a peer type's block size, metatable name and finaliser. */
  datatype PeerMeta = PeerMeta(size: nat, magic: string, gc: CFunction)

  /** The value of global `name`. */
  function Global(st: State, name: string): Value {
    FieldOf(st, Table(st.globals), name)
  }

  // ---------------------------------------------------------------------
  // jiveL_getframework
  // ---------------------------------------------------------------------

  /**
   * jiveL_getframework: push `jive.ui.Framework` and return 1. It fails
   * when `jive` or `jive.ui` is not a table; otherwise the one pushed value
   * is the only change to the state.
   */
  function GetFramework(st: State): (r: Result<Ret<int>>)
    ensures r.Ok? <==> Global(st, "jive").Table? && FieldOf(st, Global(st, "jive"), "ui").Table?
    ensures !Global(st, "jive").Table? ==> r == Err(IndexError(TypeOf(Global(st, "jive"))))
    ensures Global(st, "jive").Table? && !FieldOf(st, Global(st, "jive"), "ui").Table? ==>
      r == Err(IndexError(TypeOf(FieldOf(st, Global(st, "jive"), "ui"))))
    ensures r.Ok? ==> r.value.ret == 1
    ensures r.Ok? ==>
      var ui := FieldOf(st, Global(st, "jive"), "ui");
      r.value.st == st.(stack := st.stack + [FieldOf(st, ui, "Framework")])
  {
    var st1 := GetGlobal(st, "jive");
    var st2 :- GetField(st1, -1, "ui");
    var st3 :- GetField(st2, -1, "Framework");
    var st4 := Replace(st3, -3);
    Ok(Ret(1, Pop(st4, 1)))
  }

  // ---------------------------------------------------------------------
  // jive_getmethod
  // ---------------------------------------------------------------------

  /**
   * jive_getmethod: 0 when the value at `index` is nil or has no field
   * `name`, leaving the stack as it was; 1 when it has one, which is left
   * pushed. The stack grows by exactly the returned count and nothing else
   * changes. A value that is neither nil nor a table cannot be indexed, and
   * neither can the nil read from an index above the top (which
   * `lua_isnil` does not report as nil).
   */
  function GetMethod(st: State, index: int, name: string): (r: Result<Ret<int>>)
    requires Acceptable(st, index)
    ensures !Valid(st, index) ==> r == Err(IndexError(TNil))
    ensures Valid(st, index) && Get(st, index) == Nil ==> r == Ok(Ret(0, st))
    ensures r.Err? <==> !Valid(st, index) || (Get(st, index) != Nil && !Get(st, index).Table?)
    ensures r.Err? && Valid(st, index) ==> r.error == IndexError(TypeOf(Get(st, index)))
    ensures r.Ok? ==>
      (r.value.ret == 1 <==> Get(st, index).Table? && FieldOf(st, Get(st, index), name) != Nil)
    ensures r.Ok? ==> 0 <= r.value.ret <= 1 && |r.value.st.stack| == |st.stack| + r.value.ret
    ensures r.Ok? ==> Pop(r.value.st, r.value.ret) == st
    ensures r.Ok? && r.value.ret == 1 ==> Top(r.value.st) == FieldOf(st, Get(st, index), name)
  {
    if IsNil(st, index) then
      Ok(Ret(0, st))
    else
      var st1 :- GetField(st, index, name);
      if !IsNil(st1, -1) then
        Ok(Ret(1, st1))
      else
        Ok(Ret(0, Pop(st1, 1)))
  }

  // ---------------------------------------------------------------------
  // jive_getpeer
  // ---------------------------------------------------------------------

  /** The `peer` field of the table `obj`. */
  function PeerOf(st: State, obj: Value): Value
    requires obj.Table?
  {
    FieldOf(st, obj, "peer")
  }

  /**
   * Lines 86-87 of jive_getpeer: a new block of `size` bytes, zeroed
   * whatever the allocator returned, pushed on the stack.
   */
  function NewZeroedBlock(st: State, size: nat, raw: seq<byte>): (r: Ret<Ref>)
    requires Bounded(st) && |raw| == size
    ensures Bounded(r.st)
    ensures r.ret !in st.blocks && r.ret !in st.tables
    ensures r.st.stack == st.stack + [Userdata(r.ret)]
    ensures r.st.blocks.Keys == st.blocks.Keys + {r.ret}
    ensures r.st.blocks[r.ret] == Block(Zeros(size), None)
    ensures forall u :: u in st.blocks ==> r.st.blocks[u] == st.blocks[u]
    ensures r.st.tables == st.tables && r.st.registry == st.registry
  {
    var Ret(peer, st1) := NewUserdata(st, raw);
    Ret(peer, Memset(st1, peer))
  }

  /**
   * Lines 89-91 of jive_getpeer: push the metatable registered under
   * `magic` (registering an empty one if there is none) after setting its
   * `__gc` field to `gc`. No other table changes.
   */
  function FinalizerMetatable(st: State, magic: string, gc: CFunction): (r: State)
    requires Bounded(st)
    ensures Bounded(r)
    ensures magic in r.registry
    ensures r.registry.Keys == st.registry.Keys + {magic}
    ensures forall n :: n in st.registry ==> r.registry[n] == st.registry[n]
    ensures r.stack == st.stack + [Table(r.registry[magic])]
    ensures magic !in st.registry ==> r.registry[magic] !in st.tables && r.registry[magic] !in st.blocks
    ensures r.tables.Keys == st.tables.Keys + {r.registry[magic]}
    ensures forall t :: t != r.registry[magic] ==> FieldsOf(r.tables, t) == FieldsOf(st.tables, t)
    ensures r.tables[r.registry[magic]] == FieldsOf(st.tables, r.registry[magic])[Field("__gc") := Function(gc)]
    ensures r.blocks == st.blocks
  {
    var Ret(_, st1) := NewMetatable(st, magic);
    var st2 := PushCFunction(st1, gc);
    assert Get(st2, -2) == Table(st1.registry[magic]);
    SetField(st2, -2, "__gc").value
  }

  /**
   * Lines 86-93 of jive_getpeer, the first-call branch after the nil `peer`
   * field has been popped: a new zeroed block, tagged with the metatable
   * registered under `meta.magic` whose `__gc` is `meta.gc`, left pushed.
   * Only the new block, the registry entry and the metatable's `__gc` field
   * are new; nothing else changes.
   */
  function NewTaggedBlock(st: State, meta: PeerMeta, raw: seq<byte>): (r: Ret<Ref>)
    requires Bounded(st) && |raw| == meta.size
    ensures r.st.stack == st.stack + [Userdata(r.ret)]
    ensures r.ret !in st.blocks && r.ret !in st.tables
    ensures meta.magic in r.st.registry
    ensures r.st.registry.Keys == st.registry.Keys + {meta.magic}
    ensures forall n :: n in st.registry ==> r.st.registry[n] == st.registry[n]
    ensures Tagged(r.st, Userdata(r.ret), meta.magic)
    ensures r.st.blocks.Keys == st.blocks.Keys + {r.ret}
    ensures r.st.blocks[r.ret].bytes == Zeros(meta.size)
    ensures forall u :: u in st.blocks ==> r.st.blocks[u] == st.blocks[u]
    ensures meta.magic !in st.registry ==> r.st.registry[meta.magic] !in st.tables
    ensures r.st.tables.Keys == st.tables.Keys + {r.st.registry[meta.magic]}
    ensures forall t :: t != r.st.registry[meta.magic] ==> FieldsOf(r.st.tables, t) == FieldsOf(st.tables, t)
    ensures r.st.tables[r.st.registry[meta.magic]] ==
      FieldsOf(st.tables, r.st.registry[meta.magic])[Field("__gc") := Function(meta.gc)]
  {
    var Ret(peer, st1) := NewZeroedBlock(st, meta.size, raw);
    var st2 := FinalizerMetatable(st1, meta.magic, meta.gc);
    assert Get(st2, -2) == Userdata(peer);
    Ret(peer, SetMetatable(st2, -2))
  }

  /**
   * Lines 86-94 of jive_getpeer, after the nil `peer` field has been popped:
   * make a new tagged block and store it as field `peer` of the value at
   * `target`, an index resolved against the stack with the new block on top.
   * When `target` is a positive index naming a table, the store succeeds,
   * the stack is left as it was, and the table's `peer` field holds the new
   * zero-filled, tagged block. What else changes is stated by the
   * StorePeer lemmas of JiveProperties.
   */
  function StorePeer(st: State, target: int, meta: PeerMeta, raw: seq<byte>): (r: Result<Ret<Ref>>)
    requires Bounded(st) && |raw| == meta.size
    requires target != 0 && -|st.stack| - 1 <= target <= |st.stack| + 1
    ensures 1 <= target <= |st.stack| ==> (r.Ok? <==> Get(st, target).Table?)
    ensures r.Ok? ==> meta.magic in r.value.st.registry
    ensures 1 <= target <= |st.stack| && r.Ok? ==>
      var Ret(peer, st') := r.value;
      var obj := Get(st, target).t;
      && st'.stack == st.stack
      && peer !in st.blocks && peer !in st.tables
      && Tagged(st', Userdata(peer), meta.magic)
      && st'.blocks[peer].bytes == Zeros(meta.size)
      && FieldOf(st', Table(obj), "peer") == Userdata(peer)
  {
    var Ret(peer, st1) := NewTaggedBlock(st, meta, raw);
    assert Top(st1) == Userdata(peer);
    assert 1 <= target <= |st.stack| ==> Get(st1, target) == Get(st, target) by {
      if 1 <= target <= |st.stack| {
        GetBelowPush(st, st1, Userdata(peer), target);
      }
    }
    var st2 :- SetField(st1, target, "peer");
    Ok(Ret(peer, st2))
  }

  /**
   * jive_getpeer as written: the index is used unchanged for the final
   * `lua_setfield`, after the new block has been pushed. For a positive
   * index this is GetPeer; for a negative one it names a different slot
   * (see GetPeerNegativeIndexMisses).
   */
  function GetPeerAsWritten(st: State, index: int, meta: PeerMeta, raw: seq<byte>): (r: Result<Ret<Ref>>)
    requires Bounded(st) && Acceptable(st, index) && |raw| == meta.size
    ensures index > 0 ==> r == GetPeer(st, index, meta, raw)
  {
    var st1 :- GetField(st, index, "peer");
    if IsNil(st1, -1) then
      StorePeer(Pop(st1, 1), index, meta, raw)
    else
      var peer :- CheckUdata(st1, -1, meta.magic);
      Ok(Ret(peer, Pop(st1, 1)))
  }

  /**
   * jive_getpeer, with `index` resolved to its stack position on entry so
   * that it names the object throughout.
   *
   * It succeeds exactly when the value at `index` is a table whose `peer`
   * field is nil or a block tagged `meta.magic`; the stack is left as it
   * was and the field then holds the returned block. If the field held a
   * tagged block, that block is returned and the state is unchanged. If it
   * was nil, the returned block is a new one (see StorePeer). An index above
   * the top reads as nil, and indexing it is an error.
   */
  function GetPeer(st: State, index: int, meta: PeerMeta, raw: seq<byte>): (r: Result<Ret<Ref>>)
    requires Bounded(st) && Acceptable(st, index) && |raw| == meta.size
    ensures !Valid(st, index) ==> r == Err(IndexError(TNil))
    ensures r.Ok? <==>
      && Valid(st, index) && Get(st, index).Table?
      && (PeerOf(st, Get(st, index)) == Nil || Tagged(st, PeerOf(st, Get(st, index)), meta.magic))
    ensures Valid(st, index) && !Get(st, index).Table? ==> r == Err(IndexError(TypeOf(Get(st, index))))
    ensures Valid(st, index) && Get(st, index).Table? && r.Err? && !HasMetatable(st, PeerOf(st, Get(st, index))) ==>
      r == Err(TypeError(-1, meta.magic, TypeOf(PeerOf(st, Get(st, index)))))
    ensures Valid(st, index) && Get(st, index).Table? && r.Err? && HasMetatable(st, PeerOf(st, Get(st, index))) ==>
      r == Err(TypeError(-1, meta.magic, if meta.magic in st.registry then TTable else TNil))
    ensures r.Ok? ==>
      var Ret(peer, st') := r.value;
      && st'.stack == st.stack
      && PeerOf(st', Get(st, index)) == Userdata(peer)
      && Tagged(st', Userdata(peer), meta.magic)
    ensures r.Ok? && PeerOf(st, Get(st, index)) != Nil ==>
      r.value == Ret(PeerOf(st, Get(st, index)).u, st)
    ensures r.Ok? && PeerOf(st, Get(st, index)) == Nil ==>
      r == StorePeer(st, Position(st, index), meta, raw)
  {
    var st1 :- GetField(st, index, "peer");
    var obj := Position(st, index);
    assert Pop(st1, 1) == st && Get(st, obj) == Get(st, index);
    if IsNil(st1, -1) then
      StorePeer(Pop(st1, 1), obj, meta, raw)
    else
      var peer :- CheckUdata(st1, -1, meta.magic);
      Ok(Ret(peer, Pop(st1, 1)))
  }

  // ---------------------------------------------------------------------
  // jive_torect
  // ---------------------------------------------------------------------

  /** Element `n` of the table at `index`, read raw. */
  function Element(st: State, index: int, n: int): Value
    requires Valid(st, index) && Get(st, index).Table?
  {
    Lookup(FieldsOf(st.tables, Get(st, index).t), Item(n))
  }

  /**
   * One `lua_rawgeti; luaL_checkinteger(L, -1); lua_pop` step of
   * jive_torect: element `n` of the table at `index` as an integer, with the
   * state restored, or a type error naming the top slot.
   */
  function ReadInteger(st: State, index: int, n: int): (r: Result<Ret<int>>)
    requires Valid(st, index) && Get(st, index).Table?
    ensures r.Ok? <==> IntegerOf(Element(st, index, n)).Some?
    ensures r.Ok? ==> r.value == Ret(IntegerOf(Element(st, index, n)).value, st)
    ensures r.Err? ==> r.error == TypeError(-1, "number", TypeOf(Element(st, index, n)))
  {
    var st1 := RawGetI(st, index, n);
    var x :- CheckInteger(st1, -1);
    Ok(Ret(x, Pop(st1, 1)))
  }

  /** Element `n` is one `luaL_checkinteger` accepts. */
  predicate IntegerElement(st: State, index: int, n: int)
    requires Valid(st, index) && Get(st, index).Table?
  {
    IntegerOf(Element(st, index, n)).Some?
  }

  /**
   * jive_torect: the rectangle (x, y, w, h) read from elements 1, 2, 3, 4 of
   * the table at `index`. A non-table, or no value at all above the top, is
   * a type error naming `index`; otherwise the first of the four elements
   * that is missing or not a number is a type error naming the top slot,
   * where that element was pushed. On success the state is unchanged.
   */
  function ToRect(st: State, index: int): (r: Result<Ret<Rect>>)
    requires Acceptable(st, index)
    ensures !Valid(st, index) ==> r == Err(TypeError(index, "table", TNone))
    ensures Valid(st, index) && !Get(st, index).Table? ==>
      r == Err(TypeError(index, "table", TypeOf(Get(st, index))))
    ensures r.Ok? <==>
      && Valid(st, index) && Get(st, index).Table?
      && IntegerElement(st, index, 1) && IntegerElement(st, index, 2)
      && IntegerElement(st, index, 3) && IntegerElement(st, index, 4)
    ensures
      (&& Valid(st, index) && Get(st, index).Table?
       && !IntegerElement(st, index, 1)) ==>
      r == Err(TypeError(-1, "number", TypeOf(Element(st, index, 1))))
    ensures
      (&& Valid(st, index) && Get(st, index).Table?
       && IntegerElement(st, index, 1) && !IntegerElement(st, index, 2)) ==>
      r == Err(TypeError(-1, "number", TypeOf(Element(st, index, 2))))
    ensures
      (&& Valid(st, index) && Get(st, index).Table?
       && IntegerElement(st, index, 1) && IntegerElement(st, index, 2)
       && !IntegerElement(st, index, 3)) ==>
      r == Err(TypeError(-1, "number", TypeOf(Element(st, index, 3))))
    ensures
      (&& Valid(st, index) && Get(st, index).Table?
       && IntegerElement(st, index, 1) && IntegerElement(st, index, 2)
       && IntegerElement(st, index, 3) && !IntegerElement(st, index, 4)) ==>
      r == Err(TypeError(-1, "number", TypeOf(Element(st, index, 4))))
    ensures r.Ok? ==>
      && Valid(st, index) && Get(st, index).Table?
      && r.value.st == st
      && Some(r.value.ret.x) == IntegerOf(Element(st, index, 1))
      && Some(r.value.ret.y) == IntegerOf(Element(st, index, 2))
      && Some(r.value.ret.w) == IntegerOf(Element(st, index, 3))
      && Some(r.value.ret.h) == IntegerOf(Element(st, index, 4))
  {
    var _ :- CheckTable(st, index);
    var x :- ReadInteger(st, index, 1);
    var y :- ReadInteger(x.st, index, 2);
    var w :- ReadInteger(y.st, index, 3);
    var h :- ReadInteger(w.st, index, 4);
    Ok(Ret(Rect(x.ret, y.ret, w.ret, h.ret), h.st))
  }
}

=== FILE: lua_api.dfy ===
/**
 * An abstract Lua 5.1 state as the C API sees it, and the API calls the
 * Jive helpers in jive_utils.c make.
 *
 * The state is an immutable value: the value stack, the heap of tables and
 * full userdata blocks, the registry's named metatables (the part of the
 * registry `luaL_newmetatable` uses) and the globals table. Every API call
 * takes a state and returns the next one. A raised error (a `luaL_check*`
 * failure, or indexing a value that is not a table), which unwinds with
 * `longjmp` in C, is an `Err` result here. An `Err` carries no state: the
 * heap changes made before the error, which `longjmp` does not undo, are
 * not modelled.
 *
 * Not modelled: metamethods (`__index`/`__newindex` dispatch behind the
 * non-raw `lua_getfield`/`lua_setfield`, so a field access on anything but a
 * table is an error), the garbage collector, memory errors, metatables of
 * tables, floating-point numbers and the string-to-number parser.
 */
module LuaApi {

  datatype Option<+T> = None | Some(value: T)

  /** Heap identity of a table or a full userdata block. */
  type Ref = nat

  /** Identity of a C function (a `lua_CFunction` pointer). */
  type CFunction = nat

  newtype byte = b: int | 0 <= b < 256

  /** The answer of `lua_type`; `TNone` is its answer for an index above the top of the stack. */
  datatype TypeTag =
    | TNone | TNil | TBoolean | TLightUserdata | TNumber | TString
    | TTable | TFunction | TUserdata | TThread

  /**
   * A Lua value. A number is represented by the integer `lua_tointeger`
   * converts it to; a string carries the integer its text converts to, if
   * it is a numeral.
   */
  datatype Value =
    | Nil
    | Boolean(b: bool)
    | LightUserdata(address: nat)
    | Number(n: int)
    | Str(s: string, numeral: Option<int>)
    | Table(t: Ref)
    | Function(f: CFunction)
    | Userdata(u: Ref)
    | Thread(id: nat)

  function TypeOf(v: Value): TypeTag {
    match v
    case Nil => TNil
    case Boolean(_) => TBoolean
    case LightUserdata(_) => TLightUserdata
    case Number(_) => TNumber
    case Str(_, _) => TString
    case Table(_) => TTable
    case Function(_) => TFunction
    case Userdata(_) => TUserdata
    case Thread(_) => TThread
  }

  /** A table key: a string field name or an integer array index. */
  datatype Key = Field(name: string) | Item(n: int)

  /** A full userdata: its bytes and its metatable, if any. */
  datatype Block = Block(bytes: seq<byte>, meta: Option<Ref>)

  datatype State = State(
    stack: seq<Value>,
    tables: map<Ref, map<Key, Value>>,
    blocks: map<Ref, Block>,
    registry: map<string, Ref>,
    globals: Ref,
    next: Ref)

  datatype LuaError =
    /** luaL_typerror: "bad argument #arg (expected expected, got got)". */
    | TypeError(arg: int, expected: string, got: TypeTag)
    /** "attempt to index a got value". */
    | IndexError(got: TypeTag)

  datatype Result<+T> = Ok(value: T) | Err(error: LuaError) {
    predicate IsFailure() { Err? }

    function PropagateFailure<U>(): Result<U>
      requires Err?
    {
      Err(error)
    }

    function Extract(): T
      requires Ok?
    {
      value
    }
  }

  /** What a helper returns to C, together with the state it leaves. */
  datatype Ret<+T> = Ret(ret: T, st: State)

  /** `v` does not dangle: the table or block it names is in the heap. */
  predicate Live(st: State, v: Value) {
    match v
    case Table(t) => t in st.tables
    case Userdata(u) => u in st.blocks
    case _ => true
  }

  /** Every heap identity in use, registered metatables included, is below the allocation counter, so the next one is fresh. */
  predicate Bounded(st: State) {
    && (forall t :: t in st.tables ==> t < st.next)
    && (forall u :: u in st.blocks ==> u < st.next)
    && (forall n :: n in st.registry ==> st.registry[n] < st.next)
  }

  /**
   * The invariants of a Lua state the helpers rely on: heap identities are
   * below the allocation counter and name one object each, no value dangles,
   * tables hold no nil, and distinct registry names own distinct metatables.
   */
  predicate WellFormed(st: State) {
    && st.globals in st.tables
    && Bounded(st)
    && st.tables.Keys !! st.blocks.Keys
    && (forall n :: n in st.registry ==> st.registry[n] in st.tables)
    && (forall n, m :: n in st.registry && m in st.registry && n != m ==> st.registry[n] != st.registry[m])
    && (forall u :: u in st.blocks && st.blocks[u].meta.Some? ==> st.blocks[u].meta.value in st.tables)
    && (forall i :: 0 <= i < |st.stack| ==> Live(st, st.stack[i]))
    && (forall t, k :: t in st.tables && k in st.tables[t] ==>
          st.tables[t][k] != Nil && Live(st, st.tables[t][k]))
  }

  /** An index the C API accepts as valid: 1..top, or -top..-1 counted from the top. */
  predicate Valid(st: State, index: int) {
    1 <= index <= |st.stack| || -|st.stack| <= index <= -1
  }

  /**
   * An acceptable index: a valid one, or a positive one above the top of
   * the stack, which names no value. (The C API also bounds it by the stack
   * space reserved; here that space is unbounded.)
   */
  predicate Acceptable(st: State, index: int) {
    Valid(st, index) || index > |st.stack|
  }

  /** lua_type(L, index). */
  function TypeAt(st: State, index: int): TypeTag
    requires Acceptable(st, index)
  {
    if Valid(st, index) then TypeOf(Get(st, index)) else TNone
  }

  /** The 1-based stack position a valid index names. */
  function Position(st: State, index: int): (p: int)
    requires Valid(st, index)
    ensures 1 <= p <= |st.stack|
    ensures index > 0 ==> p == index
    ensures index < 0 ==> p - 1 - |st.stack| == index
  {
    if index > 0 then index else |st.stack| + 1 + index
  }

  function Get(st: State, index: int): Value
    requires Valid(st, index)
  {
    st.stack[Position(st, index) - 1]
  }

  /** What an index names depends on the stack alone. */
  lemma GetSameStack(a: State, b: State, index: int)
    requires a.stack == b.stack && Valid(a, index)
    ensures Valid(b, index) && Get(a, index) == Get(b, index)
  {
  }

  /** Pushing leaves what a positive index names unchanged. */
  lemma GetBelowPush(a: State, b: State, x: Value, index: int)
    requires b.stack == a.stack + [x] && 1 <= index <= |a.stack|
    ensures Valid(a, index) && Valid(b, index) && Get(b, index) == Get(a, index)
  {
  }

  function Top(st: State): Value
    requires |st.stack| > 0
  {
    st.stack[|st.stack| - 1]
  }

  /** After a push, index -2 names the old top. */
  lemma GetUnderPush(a: State, b: State, x: Value)
    requires b.stack == a.stack + [x] && |a.stack| > 0
    ensures Valid(b, -2) && Get(b, -2) == Top(a)
  {
  }

  /** A raw table read: absent keys read as nil. */
  function Lookup(fields: map<Key, Value>, k: Key): Value {
    if k in fields then fields[k] else Nil
  }

  /** The fields of table `t`, or none if there is no such table. */
  function FieldsOf(tables: map<Ref, map<Key, Value>>, t: Ref): map<Key, Value> {
    if t in tables then tables[t] else map[]
  }

  /** Field `name` of the table `v`. */
  function FieldOf(st: State, v: Value, name: string): Value
    requires v.Table?
  {
    Lookup(FieldsOf(st.tables, v.t), Field(name))
  }

  lemma LookupLive(st: State, t: Ref, k: Key)
    requires WellFormed(st)
    ensures Live(st, Lookup(FieldsOf(st.tables, t), k))
  {
  }

  function Zeros(n: nat): (z: seq<byte>)
    ensures |z| == n && forall i :: 0 <= i < n ==> z[i] == 0
  {
    seq(n, _ => 0)
  }

  // ---------------------------------------------------------------------
  // The C API calls. Each is a function of the state; that it keeps a
  // well-formed state well-formed is proved separately below.
  // ---------------------------------------------------------------------

  /** lua_pushvalue and friends: push `v`. */
  function Push(st: State, v: Value): State {
    st.(stack := st.stack + [v])
  }

  /** lua_pop(L, n). */
  function Pop(st: State, n: nat): State
    requires n <= |st.stack|
  {
    st.(stack := st.stack[..|st.stack| - n])
  }

  /** lua_isnil(L, index): false above the top, where the type is "none". */
  predicate IsNil(st: State, index: int)
    requires Acceptable(st, index)
  {
    Valid(st, index) && Get(st, index) == Nil
  }

  /**
   * lua_getfield(L, index, k): push field `k` of the value at `index`. An
   * index above the top reads as nil, which cannot be indexed.
   */
  function GetField(st: State, index: int, k: string): Result<State>
    requires Acceptable(st, index)
  {
    if !Valid(st, index) then Err(IndexError(TNil))
    else
      var v := Get(st, index);
      if v.Table? then Ok(Push(st, FieldOf(st, v, k))) else Err(IndexError(TypeOf(v)))
  }

  /** lua_getglobal(L, k): push global `k`. */
  function GetGlobal(st: State, k: string): State {
    Push(st, FieldOf(st, Table(st.globals), k))
  }

  /** lua_rawgeti(L, index, n): push element `n` of the table at `index`. */
  function RawGetI(st: State, index: int, n: int): State
    requires Valid(st, index) && Get(st, index).Table?
  {
    Push(st, Lookup(FieldsOf(st.tables, Get(st, index).t), Item(n)))
  }

  /**
   * lua_setfield(L, index, k): pop the top value and store it as field `k`
   * of the value at `index`, resolved before the pop. Storing nil removes
   * the field.
   */
  function SetField(st: State, index: int, k: string): Result<State>
    requires Valid(st, index)
  {
    var v := Get(st, index);
    var x := Top(st);
    if v.Table? then
      var fields := FieldsOf(st.tables, v.t);
      var fields' := if x == Nil then fields - {Field(k)} else fields[Field(k) := x];
      Ok(st.(stack := st.stack[..|st.stack| - 1], tables := st.tables[v.t := fields']))
    else
      Err(IndexError(TypeOf(v)))
  }

  /**
   * What lua_setfield on a table does: the field then reads back as the
   * popped value, every other field of that table and every other table
   * reads as before, and nothing but the stack top and that table changes.
   */
  lemma SetFieldEffect(st: State, index: int, k: string)
    requires Valid(st, index) && Get(st, index).Table?
    ensures var r := SetField(st, index, k);
      var t := Get(st, index).t;
      && r.Ok?
      && r.value.stack == st.stack[..|st.stack| - 1]
      && r.value.blocks == st.blocks && r.value.registry == st.registry
      && r.value.globals == st.globals && r.value.next == st.next
      && r.value.tables.Keys == st.tables.Keys + {t}
      && FieldOf(r.value, Table(t), k) == Top(st)
      && (forall k' :: k' != Field(k) ==> Lookup(r.value.tables[t], k') == Lookup(FieldsOf(st.tables, t), k'))
      && (forall t' :: t' in st.tables && t' != t ==> r.value.tables[t'] == st.tables[t'])
  {
  }

  /**
   * lua_newuserdata(L, size): allocate a block of `size` bytes and push it.
   * Its contents are whatever memory the allocator hands out, given here
   * as `raw`.
   */
  function NewUserdata(st: State, raw: seq<byte>): Ret<Ref> {
    var u := st.next;
    var heap := st.(blocks := st.blocks[u := Block(raw, None)], next := st.next + 1);
    Ret(u, heap.(stack := st.stack + [Userdata(u)]))
  }

  /** memset(block, 0, size) on the block `u`. */
  function Memset(st: State, u: Ref): State
    requires u in st.blocks
  {
    var b := st.blocks[u];
    st.(blocks := st.blocks[u := b.(bytes := Zeros(|b.bytes|))])
  }

  /**
   * luaL_newmetatable(L, tname): push the metatable registered under
   * `tname`, creating and registering an empty one first if there is none.
   * Returns whether it created one.
   */
  function NewMetatable(st: State, tname: string): Ret<bool> {
    if tname in st.registry then
      Ret(false, Push(st, Table(st.registry[tname])))
    else
      var t := st.next;
      var heap := st.(tables := st.tables[t := map[]], registry := st.registry[tname := t], next := st.next + 1);
      Ret(true, heap.(stack := st.stack + [Table(t)]))
  }

  /** lua_pushcfunction(L, f). */
  function PushCFunction(st: State, f: CFunction): State {
    Push(st, Function(f))
  }

  /** lua_setmetatable(L, index): pop the table on top and make it the metatable of the userdata at `index`. */
  function SetMetatable(st: State, index: int): State
    requires Valid(st, index) && Top(st).Table?
    requires Get(st, index).Userdata? && Get(st, index).u in st.blocks
  {
    var u := Get(st, index).u;
    var b := st.blocks[u];
    st.(stack := st.stack[..|st.stack| - 1], blocks := st.blocks[u := b.(meta := Some(Top(st).t))])
  }

  /** lua_replace(L, index): pop the top value into the slot at `index`, resolved before the pop. */
  function Replace(st: State, index: int): State
    requires Valid(st, index)
  {
    var stack := st.stack[Position(st, index) - 1 := Top(st)];
    st.(stack := stack[..|stack| - 1])
  }

  /** luaL_checktype(L, index, LUA_TTABLE): the table at `index`, or a type error. */
  function CheckTable(st: State, index: int): Result<Ref>
    requires Acceptable(st, index)
  {
    if Valid(st, index) && Get(st, index).Table? then Ok(Get(st, index).t)
    else Err(TypeError(index, "table", TypeAt(st, index)))
  }

  /** The integer `luaL_checkinteger` accepts `v` as: a number or a numeral string. */
  function IntegerOf(v: Value): Option<int> {
    match v
    case Number(n) => Some(n)
    case Str(_, numeral) => numeral
    case _ => None
  }

  /** luaL_checkinteger(L, index). */
  function CheckInteger(st: State, index: int): Result<int>
    requires Valid(st, index)
  {
    var v := Get(st, index);
    match IntegerOf(v)
    case Some(n) => Ok(n)
    case None => Err(TypeError(index, "number", TypeOf(v)))
  }

  /** `v` is a full userdata whose metatable is the one registered under `tname`. */
  predicate Tagged(st: State, v: Value, tname: string) {
    && v.Userdata? && v.u in st.blocks
    && tname in st.registry
    && st.blocks[v.u].meta == Some(st.registry[tname])
  }

  /** `v` is a full userdata that has a metatable. */
  predicate HasMetatable(st: State, v: Value) {
    v.Userdata? && v.u in st.blocks && st.blocks[v.u].meta.Some?
  }

  /**
   * luaL_checkudata(L, index, tname) as Lua 5.1's lauxlib writes it: the
   * block at `index` if it is tagged `tname`, else a type error. For a block
   * with a metatable, that metatable and the one registered under `tname`
   * (nil if none) are pushed before they are compared, and the error
   * reports the type at `index` as it then resolves, so a relative index
   * names one of the pushed values.
   */
  function CheckUdata(st: State, index: int, tname: string): (r: Result<Ref>)
    requires Valid(st, index)
    ensures r.Ok? <==> Tagged(st, Get(st, index), tname)
    ensures r.Ok? ==> Get(st, index) == Userdata(r.value)
    ensures r.Err? && !HasMetatable(st, Get(st, index)) ==>
      r.error == TypeError(index, tname, TypeOf(Get(st, index)))
    ensures r.Err? && HasMetatable(st, Get(st, index)) && index == -1 ==>
      r.error == TypeError(-1, tname, if tname in st.registry then TTable else TNil)
  {
    var v := Get(st, index);
    if Tagged(st, v, tname) then Ok(v.u)
    else if HasMetatable(st, v) then
      var registered := if tname in st.registry then Table(st.registry[tname]) else Nil;
      var st' := Push(Push(st, Table(st.blocks[v.u].meta.value)), registered);
      Err(TypeError(index, tname, TypeOf(Get(st', index))))
    else
      Err(TypeError(index, tname, TypeOf(v)))
  }

  // ---------------------------------------------------------------------
  // Each call keeps a well-formed state well-formed
  // ---------------------------------------------------------------------

  lemma PushKeepsWellFormed(st: State, v: Value)
    requires WellFormed(st) && Live(st, v)
    ensures WellFormed(Push(st, v))
  {
  }

  lemma PopKeepsWellFormed(st: State, n: nat)
    requires WellFormed(st) && n <= |st.stack|
    ensures WellFormed(Pop(st, n))
  {
  }

  lemma GetFieldKeepsWellFormed(st: State, index: int, k: string)
    requires WellFormed(st) && Acceptable(st, index) && GetField(st, index, k).Ok?
    ensures WellFormed(GetField(st, index, k).value)
  {
    assert Valid(st, index);
    LookupLive(st, Get(st, index).t, Field(k));
  }

  lemma GetGlobalKeepsWellFormed(st: State, k: string)
    requires WellFormed(st)
    ensures WellFormed(GetGlobal(st, k))
  {
    LookupLive(st, st.globals, Field(k));
  }

  lemma RawGetIKeepsWellFormed(st: State, index: int, n: int)
    requires WellFormed(st) && Valid(st, index) && Get(st, index).Table?
    ensures WellFormed(RawGetI(st, index, n))
  {
    LookupLive(st, Get(st, index).t, Item(n));
  }

  lemma SetFieldKeepsWellFormed(st: State, index: int, k: string)
    requires WellFormed(st) && Valid(st, index) && SetField(st, index, k).Ok?
    ensures WellFormed(SetField(st, index, k).value)
  {
  }

  /** The block lua_newuserdata allocates is new: no table or block had its identity. */
  lemma NewUserdataKeepsWellFormed(st: State, raw: seq<byte>)
    requires WellFormed(st)
    ensures WellFormed(NewUserdata(st, raw).st)
    ensures NewUserdata(st, raw).ret !in st.blocks && NewUserdata(st, raw).ret !in st.tables
  {
  }

  lemma MemsetKeepsWellFormed(st: State, u: Ref)
    requires WellFormed(st) && u in st.blocks
    ensures WellFormed(Memset(st, u))
  {
  }

  /** The metatable luaL_newmetatable creates is a new table, so registry names still own distinct tables. */
  lemma NewMetatableKeepsWellFormed(st: State, tname: string)
    requires WellFormed(st)
    ensures WellFormed(NewMetatable(st, tname).st)
  {
    if tname in st.registry {
      PushKeepsWellFormed(st, Table(st.registry[tname]));
    }
  }

  lemma SetMetatableKeepsWellFormed(st: State, index: int)
    requires WellFormed(st) && Valid(st, index) && Top(st).Table?
    requires Get(st, index).Userdata? && Get(st, index).u in st.blocks
    ensures WellFormed(SetMetatable(st, index))
  {
  }

  lemma ReplaceKeepsWellFormed(st: State, index: int)
    requires WellFormed(st) && Valid(st, index)
    ensures WellFormed(Replace(st, index))
  {
  }
}
